=== FILE: README.md ===
# Scatterplot tooltip model

A Dafny model of the interactive logic in `src/App.js`, a D3 scatterplot of the
35 fastest Alpe d'Huez climbs plotted against year. Each marker is one cyclist's
record. Hovering a marker opens a "detail box" with the rider's name, year, time
and any doping allegation. The model covers the pure rules and the hover state
machine:

- `Decimal`: how JavaScript prints a whole number inside a template literal, with a parser as its inverse.
- `TimeLabel`: `getTime`, the `M:SS` label used for the y-axis ticks and the "Tiempo" line. Only a seconds field of exactly 0 is padded.
- `Cyclist`: the record, the marker's radius and colour, the box outline colour and the three-way box size rule.
- `Layout`: the viewport-height breakpoints and `getX` / `getY`, which flip the box near the right and bottom edges.
- `TooltipText`: the three to five lines of `createTextData` / `lineBreak`. Doping text longer than 50 characters is split at character 50.
- `Hover`: the `circleOver` / `boxOver` flags, the box groups, the expanded-or-collapsed box, the marker radii and the pending `closeBox` timers. The events are marker enter/leave, box enter/leave and a timer firing.

Four behaviours of the code are easy to misread:

- `getTime(65)` produces `"1:5"`, not `"1:05"`. Only the literal 0 is padded.
- The box flips left when the marker's x exceeds the fixed threshold `800 - 40 - 200 = 560`, whatever the box width. A 350-pixel box for a marker between x = 445 and x = 560 therefore runs past the chart's right edge (`Layout.BoxWithinWidth`).
- The close sequence sets every marker to radius 7, including clean riders' markers that were first drawn at 9.
- The chart-height rule is not monotone. A 450-pixel viewport gives a 450-pixel chart but a 451-pixel viewport gives 371, and 600 gives 520 but 601 gives 451 (`Layout.ChartHeightDrops`).

## Model

| member | source | states |
|---|---|---|
| Decimal.NatToString | src/App.js:53 | a whole number prints as a non-empty digit string without a leading zero; it is one character long exactly when the number is below 10 |
| Decimal.IntToString | src/App.js:264 | a year prints with a leading '-' exactly when it is negative, its digits have no leading zero, and `ParseInt` reads the text back as the same year |
| Decimal.IntToStringInjective | src/App.js:264 | different years print differently |
| TimeLabel.ClockSeconds | src/App.js:47-48 | the seconds field is in 0..59 and differs from x by a whole number of minutes |
| TimeLabel.ClockMinutes | src/App.js:47-50 | the minutes field is in 0..59, and x minus it (in minutes) minus the seconds field is a whole number of hours |
| TimeLabel.SecondsField | src/App.js:48-49 | the seconds text has one character exactly for seconds 1 to 9; 0 becomes the two-character "00" |
| TimeLabel.FormatTime | src/App.js:44-53 | the colon follows the unpadded minutes; the seconds text is one character exactly for seconds 1 to 9 and two otherwise, so only 0 is padded ("00") |
| TimeLabel.ParseFormatTime | src/App.js:44-53 | reading the label back gives minutes = (x div 60) mod 60 and seconds = x mod 60, so the missing padding loses nothing |
| TimeLabel.FormatTimeSameWithinHour | src/App.js:45-50 | two second counts share a label if and only if they are equal modulo 3600; hours are dropped |
| TimeLabel.FormatTimeExamples | src/App.js:44-53 | 0 gives "0:00", 65 gives "1:5", 2340 gives "39:00" and 3600 gives "0:00" |
| Cyclist.InitialMarker | src/App.js:162-163 | a flagged rider's marker has radius 7 and fill "#fb8b23"; a clean rider's has radius 9 and fill "#61D65Dff"; both directions hold |
| Cyclist.BoxStroke | src/App.js:207 | a flagged rider's box outline is the marker's orange; a clean rider's is "#7ae582", not the marker's green |
| Cyclist.BoxSize | src/App.js:107-112 | empty doping gives (60, 175); 1 to 50 characters give (75, 350); more than 50 give (90, 350); empty is tested before the length |
| Layout.ChartHeight | src/App.js:12-16 | the height is viewport - 150 above 600, viewport - 80 above 450 and 450 otherwise; it is always more than 370, and above a 450 viewport it leaves at least 80 pixels free |
| Layout.ChartHeightDrops | src/App.js:12-16 | for viewports a < b, the chart gets shorter if and only if a <= 450 < b < 530, or 450 < a <= 600 < b < a + 70 |
| Layout.ChartHeightDropExamples | src/App.js:12-16 | 450 gives 450 and 451 gives 371; 600 gives 520 and 601 gives 451 |
| Layout.GetX | src/App.js:180-189 | the box starts 5 to the right of the marker, or its width (175 or 350, as in the box size) to the left; it flips exactly when x > 560 |
| Layout.BoxClearsMarkerX | src/App.js:180-189 | the box never straddles the marker's x: it lies wholly right of it or ends at it |
| Layout.BoxWithinWidth | src/App.js:180-189 | for a marker in the plotting area, the box fits in the 800-pixel width if and only if doping is empty, x <= 445 or x > 560 |
| Layout.GetY | src/App.js:191-195 | the box starts 5 below the marker or 100 above it; it goes above exactly when y > h - 140 |
| Layout.BoxClearsMarkerY | src/App.js:191-195 | the box lies wholly below the marker's y or wholly above it |
| Layout.BoxWithinHeight | src/App.js:191-195 | for any viewport, a marker in the plotting area gets a box within the chart's height |
| TooltipText.HeaderLines | src/App.js:262-265 | three lines: "name (nationality)", "Año: " followed by the printed year, and "Tiempo: " followed by the time label of `Seconds`; both texts read back as the year and the clock fields |
| TooltipText.InfoLines | src/App.js:229-243 | no line for empty doping; for 1 to 50 characters, "Info: " + doping + "."; for longer text, "Info: " + its first 50 characters + "_" and then the rest + "." |
| TooltipText.TextLines | src/App.js:262-266 | 3 to 5 lines: the header lines, then the info lines |
| TooltipText.TextLayout | src/App.js:221-227 | one tspan per line, each at x = getX + 7; the first has dy "0em" and every later one "1.2em" |
| TooltipText.LineCount | src/App.js:229-243 | 3 lines if and only if doping is empty; 4 if and only if it has 1 to 50 characters; 5 if and only if it is longer |
| TooltipText.RecoverTextLines | src/App.js:229-243 | the info lines have the "Info: " prefix, the 50-character split with "_" and the final "."; removing them and joining the rest gives back the doping text |
| TooltipText.BoxHeightFitsLines | src/App.js:107-112 | box height = 15 x line count + 15, and the narrow width goes with exactly the three-line box |
| TooltipText.TimeLineReadsBack | src/App.js:262-265 | the third line is "Tiempo: " followed by the time label of the record's seconds, which reads back as its clock minutes and seconds |
| TooltipText.YearLineReadsBack | src/App.js:264 | the second line is "Año: " followed by the printed year, which reads back as the year |
| Hover.InitialRadii | src/App.js:162 | there is one radius per drawn place, each 7 or 9 |
| Hover.InitialRadiusOfPlace | src/App.js:162 | each marker's first radius is the one its record's doping gives (7 or 9) |
| Hover.Initial | src/App.js:8 | at mount there is no group, no expanded box, no flag set and no pending timer, and the radii are the initial ones |
| Hover.CreateBoxGroup | src/App.js:197-217 | the new group is keyed by the record's place and placed at (getX, getY); it never covers the marker; its size and outline follow the doping; its tspans are the record's text layout; its height matches its line count; its lines give back the doping text |
| Hover.HoverRadii | src/App.js:166-170 | hovering sets the hovered marker to 12 and every other marker to 6, keeping the same set of markers |
| Hover.OpenBox | src/App.js:106-137 | if a group for the place exists, nothing is removed or created; otherwise every group is replaced by exactly one new group for the record; the box ends up expanded |
| Hover.Close | src/App.js:140-148 | the close sequence collapses the box and sets every radius to 7, but removes no group and leaves the flags alone |
| Hover.Step | src/App.js:106-260 | no event breaks "at most one group, and an expanded box only when one exists"; only a marker entry changes the groups, and it leaves that record's box expanded with circleOver set, boxOver unchanged and no timer cancelled |
| Hover.PointerEventEffects | src/App.js:174-260 | marker leave clears circleOver and starts a timer; box enter sets boxOver; box leave clears it and starts a timer; none of them touches groups, expansion or radii |
| Hover.MarkerEnterOwnsBox | src/App.js:166-173 | after a marker is entered there is exactly one group, it is that record's, it is expanded and circleOver is set; boxOver and the pending timers are unchanged |
| Hover.MarkerEnterRadii | src/App.js:166-170 | entering a drawn marker makes it 12 and every other marker 6 |
| Hover.TimerGuard | src/App.js:140-148 | a firing timer uses itself up and leaves the groups, both flags and the set of markers alone; it closes the box if and only if both flags are false, and otherwise changes nothing else |
| Hover.RunPreservesInv | src/App.js:113-119 | over any event sequence there is at most one group, and an expanded box only when one exists |
| Hover.BoxBelongsToLastEntered | src/App.js:113-119 | after any event sequence the only group is the last entered marker's; a sequence with no entry leaves the groups as they were |
| Hover.BoxHoverKeepsOpen | src/App.js:212-216 | while the pointer stays on the box, no timer and no marker event collapses it |
| Hover.LeaveMarkerThenClose | src/App.js:174-176 | leaving the marker, with the pointer not on the box, lets the next timer to fire close the box, whatever timers were pending |
| Hover.HoverThenLeaveCloses | src/App.js:166-176 | on a freshly drawn chart, entering a marker, leaving it and letting the timer fire closes the box |
| Hover.EnterBoxKeepsOpen | src/App.js:254-256 | once the pointer enters an expanded box, it stays expanded until the pointer leaves the box |
| Hover.LeaveBoxThenClose | src/App.js:213-216 | leaving the box with no marker hovered lets the next timer to fire close it, whatever timers were pending |
| Hover.StaleCloseSuppressed | src/App.js:174-177 | leaving one marker and entering another before the timer fires keeps the second record's box open |
| Hover.OpenTwiceKeepsOnlySecond | src/App.js:113-117 | opening A and then B leaves exactly B's group, expanded |
| Hover.StepRadii | src/App.js:166-170 | an event keeps the same markers; each radius stays or becomes 6, 7 or 12; after a marker entry all are 6, 7 or 12 |
| Hover.RadiiOverTrace | src/App.js:143 | over any trace each marker keeps its radius or takes 6, 7 or 12; once a marker has been entered every radius is 6, 7 or 12, so no clean rider's marker is 9 again |
| Hover.CloseForgetsInitialRadius | src/App.js:143 | a clean rider's marker starts at 9 in the initial state and is 7 after a close |

## Left out

- The dataset fetch (`d3.json`), the React `useEffect`/JSX shell and the CSS. These are I/O and framework code.
- Parsing `Time` into a JavaScript `Date` and writing it to `data-yvalue` (lines 24-26 and 161). This behaviour depends on the time zone. Labels use `Seconds` instead.
- `getTime` is modelled for whole seconds, in UTC or a whole-hour time zone. With a half-hour offset the minutes field would shift. Fractional tick values are truncated by `setSeconds` and are not modelled.
- The `d3.scaleLinear` scales and `d3.min`/`d3.max`. These work in floating point. A marker's centre is an input to the model (`Hover.Marker`, `Layout.GetX`, `Layout.GetY`).
- Animation durations, the ordering of chained transitions and opacity/visibility tweening. Only the end state is modelled: an expanded or collapsed box, and the marker radii.
- The `data-year` attribute set on `#tooltip`, the legend's layout and text, the axes and their captions, and `console.log`. None of these affects behaviour. The markers' two colours, which the legend swatches repeat, are kept as `Cyclist.CleanColour` and `Cyclist.FlaggedColour`.
- Pointer geometry: the model does not decide whether the pointer can actually reach a collapsed box. Box enter/leave events may arrive in any state.
- The rectangle and its text carry identical handlers, so one `BoxEnter`/`BoxLeave` pair models both.
- A missing `Doping` field. The code would fail on `.length`; every record here has a string.
- Character positions. `substring(0, 50)` counts UTF-16 code units, while the model splits a Dafny string of Unicode characters. The two differ only for text outside the Basic Multilingual Plane.
- Timers are not cancelled when the widget unmounts.
- Decimal.IntToString: does not model JavaScript number limits. Integers are unbounded here, while JavaScript prints magnitudes of 10^21 and above in exponent form ("1e+21") and loses integer precision above 2^53. Years never come near either limit.
- TimeLabel.FormatTime: total over all integers. `date.setSeconds(x)` gives an Invalid Date, and so the label "NaN:NaN", once x is beyond about 8.64e12 seconds. Axis ticks and race times are a few thousand seconds.

=== FILE: cyclist.dfy ===
/**
  One cyclist's time-trial record and the per-record rules of the chart:
  the marker's radius and colour, the detail box's stroke and its size.
  All of them depend on `Doping` alone, and a non-empty string is what
  JavaScript treats as truthy.
 */
module Cyclist {

  /** One entry of the dataset; `place` is unique and identifies the record. */
  datatype Record = Record(
    place: int,
    name: string,
    nationality: string,
    year: int,
    seconds: int,
    doping: string)

  predicate Flagged(doping: string) {
    doping != ""
  }

  /** The two category colours, shared by the markers and the legend's swatches. */
  const FlaggedColour: string := "#fb8b23"
  const CleanColour: string := "#61D65Dff"

  /** The outline of a clean rider's detail box, a lighter green than the marker. */
  const CleanStroke: string := "#7ae582"

  /** A marker's radius and fill as first drawn. */
  datatype MarkerStyle = MarkerStyle(radius: int, fill: string)

  function InitialMarker(doping: string): (m: MarkerStyle)
    ensures Flagged(doping) <==> m.fill == "#fb8b23"
    ensures !Flagged(doping) <==> m.fill == "#61D65Dff"
    ensures Flagged(doping) <==> m.radius == 7
    ensures !Flagged(doping) <==> m.radius == 9
  {
    if Flagged(doping) then MarkerStyle(7, FlaggedColour) else MarkerStyle(9, CleanColour)
  }

  /** The detail box's outline colour. */
  function BoxStroke(doping: string): (c: string)
    ensures Flagged(doping) <==> c == InitialMarker(doping).fill
    ensures !Flagged(doping) <==> c == "#7ae582"
  {
    if Flagged(doping) then FlaggedColour else CleanStroke
  }

  datatype Size = Size(height: int, width: int)

  /**
    The size the open animation gives the detail box. The empty string is
    tested first, so it does not fall into the "at most 50" case.
   */
  function BoxSize(doping: string): (s: Size)
    ensures doping == "" <==> s == Size(60, 175)
    ensures 1 <= |doping| <= 50 <==> s == Size(75, 350)
    ensures 50 < |doping| <==> s == Size(90, 350)
  {
    if doping == "" then Size(60, 175)
    else if |doping| <= 50 then Size(75, 350)
    else Size(90, 350)
  }
}

=== FILE: decimal.dfy ===
/**
  Decimal text of integers, as JavaScript's template literals print a
  whole number (`${n}`) of magnitude below 10^21: no leading zeros, a leading
  `-` for negatives.
  The parser is the partner used to state that a printed number can be
  read back.
 */
module Decimal {
  import opened Wrappers

  predicate IsDigit(c: char) {
    '0' <= c <= '9'
  }

  predicate AllDigits(s: string) {
    forall i :: 0 <= i < |s| ==> IsDigit(s[i])
  }

  function DigitChar(d: int): (c: char)
    requires 0 <= d < 10
    ensures IsDigit(c)
    ensures c as int - '0' as int == d
  {
    ('0' as int + d) as char
  }

  function DigitValue(c: char): (d: int)
    requires IsDigit(c)
    ensures 0 <= d < 10
  {
    c as int - '0' as int
  }

  /** The decimal text of a non-negative integer. */
  function NatToString(n: nat): (s: string)
    ensures 1 <= |s|
    ensures AllDigits(s)
    ensures |s| > 1 ==> s[0] != '0'
    ensures |s| == 1 <==> n < 10
    decreases n
  {
    if n < 10 then [DigitChar(n)] else NatToString(n / 10) + [DigitChar(n % 10)]
  }

  /** `${i}` for a whole number `i`; `ParseInt` reads it back. */
  function IntToString(i: int): (s: string)
    ensures 1 <= |s|
    ensures i < 0 <==> s[0] == '-'
    ensures var digits := if i < 0 then s[1..] else s; |digits| > 1 ==> digits[0] != '0'
    ensures ParseInt(s) == Some(i)
  {
    if i < 0 then
      var t := "-" + NatToString(-i);
      assert t[1..] == NatToString(-i);
      ParseNatToString(-i);
      t
    else
      ParseNatToString(i);
      NatToString(i)
  }

  /** The value of a string of decimal digits, read most significant first. */
  function ParseDigits(s: string): nat
    requires AllDigits(s)
  {
    if |s| == 0 then 0 else ParseDigits(s[..|s| - 1]) * 10 + DigitValue(s[|s| - 1])
  }

  /** Reads back what `IntToString` prints; `None` for anything else. */
  function ParseInt(s: string): Option<int> {
    if 1 <= |s| && s[0] == '-' then
      if 2 <= |s| && AllDigits(s[1..]) then Some(-(ParseDigits(s[1..]) as int)) else None
    else if 1 <= |s| && AllDigits(s) then Some(ParseDigits(s))
    else None
  }

  lemma {:induction false} ParseNatToString(n: nat)
    ensures ParseDigits(NatToString(n)) == n
    decreases n
  {
    if n >= 10 {
      var s := NatToString(n);
      assert s[..|s| - 1] == NatToString(n / 10);
      ParseNatToString(n / 10);
    }
  }

  /** Distinct numbers print differently. */
  lemma IntToStringInjective(i: int, j: int)
    requires IntToString(i) == IntToString(j)
    ensures i == j
  {
  }
}

=== FILE: hover.dfy ===
/**
  The hover state machine behind the detail box (src/App.js): the two
  flags `circleOver` and `boxOver`, the box groups present in the chart, whether
  the open box is expanded, the markers' radii, and the `closeBox` timers still
  waiting to fire.

  Animations are reduced to their end state. Every `closeBox` timer has the
  same 300 ms delay and captures nothing, so pending timers are a count and
  a `TimerFires` event consumes one; the check it runs reads the flags as they
  are when it fires.
 */
module Hover {
  import opened Wrappers
  import opened Cyclist
  import opened Layout
  import opened TooltipText

  /** A drawn marker: its record and its centre on the chart. */
  datatype Marker = Marker(rec: Record, cx: real, cy: real)

  /** A `.boxData` group: the rectangle `box-<place>` and its text. */
  datatype BoxGroup = BoxGroup(
    place: int,
    x: real,
    y: real,
    size: Size,
    stroke: string,
    lines: seq<Tspan>)

  datatype Tooltip = Tooltip(
    circleOver: bool,
    boxOver: bool,
    groups: seq<BoxGroup>,
    shown: bool,
    radii: map<int, int>,
    pending: nat)

  /** Pointer events on a marker, on the box (its rectangle or its text), and a timer firing. */
  datatype Event =
    | MarkerEnter(m: Marker)
    | MarkerLeave
    | BoxEnter
    | BoxLeave
    | TimerFires

  /** At most one group, and an expanded box only when there is one. */
  predicate Inv(s: Tooltip) {
    |s.groups| <= 1 && (s.shown ==> |s.groups| == 1)
  }

  predicate HasGroup(groups: seq<BoxGroup>, place: int) {
    exists i :: 0 <= i < |groups| && groups[i].place == place
  }

  /**
    Radii of freshly drawn markers, keyed by place; `InitialRadiusOfPlace`
    ties each to its record (a later duplicate place would win).
   */
  function InitialRadii(ms: seq<Marker>): (radii: map<int, int>)
    ensures forall p :: p in radii <==> exists i :: 0 <= i < |ms| && ms[i].rec.place == p
    ensures forall p :: p in radii ==> radii[p] == 7 || radii[p] == 9
  {
    if |ms| == 0 then map[]
    else
      var last := ms[|ms| - 1];
      InitialRadii(ms[..|ms| - 1])[last.rec.place := InitialMarker(last.rec.doping).radius]
  }

  /** The chart right after drawing: no box, no flag set, no timer. */
  function Initial(ms: seq<Marker>): (s: Tooltip)
    ensures s.groups == [] && !s.shown && s.pending == 0 && !s.circleOver && !s.boxOver
    ensures s.radii == InitialRadii(ms)
  {
    Tooltip(false, false, [], false, InitialRadii(ms), 0)
  }

  /** Each marker starts with the radius its record's doping gives it, when no later marker shares its place. */
  lemma {:induction false} InitialRadiusOfPlace(ms: seq<Marker>, i: nat)
    requires i < |ms|
    requires forall j :: i < j < |ms| ==> ms[j].rec.place != ms[i].rec.place
    ensures ms[i].rec.place in InitialRadii(ms)
    ensures InitialRadii(ms)[ms[i].rec.place] == InitialMarker(ms[i].rec.doping).radius
    decreases |ms|
  {
    if i < |ms| - 1 {
      var init := ms[..|ms| - 1];
      assert init[i] == ms[i];
      assert forall j :: i < j < |init| ==> init[j].rec.place != init[i].rec.place by {
        forall j | i < j < |init| ensures init[j].rec.place != init[i].rec.place {
          assert init[j] == ms[j];
        }
      }
      InitialRadiusOfPlace(init, i);
    }
  }

  /** The group `createBoxData` and `createTextData` build for a marker, collapsed and hidden. */
  function CreateBoxGroup(h: int, m: Marker): (g: BoxGroup)
    ensures g.place == m.rec.place
    ensures g.x == GetX(m.cx, m.rec.doping) && g.y == GetY(m.cy, h)
    ensures g.size == BoxSize(m.rec.doping) && g.stroke == BoxStroke(m.rec.doping)
    ensures g.x > m.cx || g.x + g.size.width as real <= m.cx
    ensures g.y > m.cy || g.y + g.size.height as real < m.cy
    ensures g.lines == TextLayout(m.rec, m.cx)
    ensures RecoverDoping(Texts(g.lines)) == Some(m.rec.doping)
    ensures g.size.height == 15 * |g.lines| + 15
  {
    var lines := TextLayout(m.rec, m.cx);
    assert Texts(lines) == TextLines(m.rec);
    RecoverTextLines(m.rec);
    BoxHeightFitsLines(m.rec);
    BoxClearsMarkerX(m.cx, m.rec.doping);
    BoxClearsMarkerY(m.cy, h, m.rec.doping);
    BoxGroup(m.rec.place, GetX(m.cx, m.rec.doping), GetY(m.cy, h),
             BoxSize(m.rec.doping), BoxStroke(m.rec.doping), lines)
  }

  /** Hovering marker `p`: every marker shrinks to 6, the hovered one grows to 12. */
  function HoverRadii(radii: map<int, int>, p: int): (r: map<int, int>)
    ensures r.Keys == radii.Keys
    ensures p in radii ==> r[p] == 12
    ensures forall q :: q in r && q != p ==> r[q] == 6
  {
    map q | q in radii :: if q == p then 12 else 6
  }

  /**
    `openBox`: when no box for this place exists, every group is removed and
    one is built for the record; otherwise the groups are left alone. Either
    way the open animation expands this record's box.
   */
  function OpenBox(h: int, s: Tooltip, m: Marker): (r: Tooltip)
    ensures HasGroup(s.groups, m.rec.place) ==> r.groups == s.groups
    ensures !HasGroup(s.groups, m.rec.place) ==>
              |r.groups| == 1 && r.groups[0] == CreateBoxGroup(h, m)
    ensures HasGroup(r.groups, m.rec.place) && r.shown
    ensures r.circleOver == s.circleOver && r.boxOver == s.boxOver
    ensures r.radii == s.radii && r.pending == s.pending
  {
    var groups := if HasGroup(s.groups, m.rec.place) then s.groups else [CreateBoxGroup(h, m)];
    s.(groups := groups, shown := true)
  }

  /** The close sequence: markers back to radius 7, the box collapsed, its text hidden; no group is removed. */
  function Close(s: Tooltip): (r: Tooltip)
    ensures !r.shown && r.groups == s.groups
    ensures r.radii.Keys == s.radii.Keys && forall p :: p in r.radii ==> r.radii[p] == 7
    ensures r.circleOver == s.circleOver && r.boxOver == s.boxOver && r.pending == s.pending
  {
    s.(shown := false, radii := map p | p in s.radii :: 7)
  }

  /**
    One event on a chart of height `h`. Only a marker entry touches the
    groups; it always leaves the entered record's box expanded.
   */
  function Step(h: int, s: Tooltip, e: Event): (r: Tooltip)
    ensures Inv(s) ==> Inv(r)
    ensures !e.MarkerEnter? ==> r.groups == s.groups
    ensures e.MarkerEnter? ==> r.shown && r.circleOver && HasGroup(r.groups, e.m.rec.place)
    ensures e.MarkerEnter? ==> r.boxOver == s.boxOver && r.pending == s.pending
  {
    match e
    case MarkerEnter(m) =>
      OpenBox(h, s.(radii := HoverRadii(s.radii, m.rec.place), circleOver := true), m)
    case MarkerLeave => s.(circleOver := false, pending := s.pending + 1)
    case BoxEnter => s.(boxOver := true)
    case BoxLeave => s.(boxOver := false, pending := s.pending + 1)
    case TimerFires =>
      if s.pending == 0 then s
      else
        var s' := s.(pending := s.pending - 1);
        if !s'.boxOver && !s'.circleOver then Close(s') else s'
  }

  /** A sequence of events, in order. */
  function Run(h: int, s: Tooltip, es: seq<Event>): Tooltip
    decreases |es|
  {
    if |es| == 0 then s else Run(h, Step(h, s, es[0]), es[1..])
  }

  /** The place of the last marker entered in `es`, if any. */
  function LastEntered(es: seq<Event>): Option<int>
    decreases |es|
  {
    if |es| == 0 then None
    else match es[|es| - 1]
      case MarkerEnter(m) => Some(m.rec.place)
      case _ => LastEntered(es[..|es| - 1])
  }

  /**
    Leaving a marker clears `circleOver` and starts a timer; entering the box
    sets `boxOver`; leaving it clears `boxOver` and starts a timer. None of
    them touches the groups, the box's expansion or the radii.
   */
  lemma PointerEventEffects(h: int, s: Tooltip)
    ensures var r := Step(h, s, MarkerLeave);
            && !r.circleOver && r.boxOver == s.boxOver && r.pending == s.pending + 1
            && r.groups == s.groups && r.shown == s.shown && r.radii == s.radii
    ensures var r := Step(h, s, BoxEnter);
            && r.circleOver == s.circleOver && r.boxOver && r.pending == s.pending
            && r.groups == s.groups && r.shown == s.shown && r.radii == s.radii
    ensures var r := Step(h, s, BoxLeave);
            && r.circleOver == s.circleOver && !r.boxOver && r.pending == s.pending + 1
            && r.groups == s.groups && r.shown == s.shown && r.radii == s.radii
  {
  }

  /**
    Entering a marker leaves exactly one group, the entered record's,
    expanded; it neither touches `boxOver` nor cancels a pending timer.
   */
  lemma MarkerEnterOwnsBox(h: int, s: Tooltip, m: Marker)
    requires Inv(s)
    ensures var r := Step(h, s, MarkerEnter(m));
            && |r.groups| == 1 && r.groups[0].place == m.rec.place && r.shown && r.circleOver
            && r.boxOver == s.boxOver && r.pending == s.pending
  {
  }

  /** Marker style while hovering: the entered marker at 12, every other at 6. */
  lemma MarkerEnterRadii(h: int, s: Tooltip, m: Marker)
    requires m.rec.place in s.radii
    ensures var r := Step(h, s, MarkerEnter(m));
            r.radii.Keys == s.radii.Keys
            && r.radii[m.rec.place] == 12
            && forall q :: q in r.radii && q != m.rec.place ==> r.radii[q] == 6
  {
  }

  /**
    A timer firing runs the close sequence exactly when neither flag is set;
    otherwise it only uses up the timer. Either way the groups stay.
   */
  lemma TimerGuard(h: int, s: Tooltip)
    requires s.pending > 0
    ensures var r := Step(h, s, TimerFires);
            && r.pending == s.pending - 1
            && r.groups == s.groups
            && r.circleOver == s.circleOver && r.boxOver == s.boxOver
            && r.radii.Keys == s.radii.Keys
            && (!s.boxOver && !s.circleOver ==> !r.shown && forall p :: p in r.radii ==> r.radii[p] == 7)
            && (s.boxOver || s.circleOver ==> r == s.(pending := s.pending - 1))
  {
  }

  lemma {:induction false} RunPreservesInv(h: int, s: Tooltip, es: seq<Event>)
    requires Inv(s)
    ensures Inv(Run(h, s, es))
    decreases |es|
  {
    if |es| > 0 {
      RunPreservesInv(h, Step(h, s, es[0]), es[1..]);
    }
  }

  lemma {:induction false} RunSplit(h: int, s: Tooltip, es: seq<Event>)
    requires |es| > 0
    ensures Run(h, s, es) == Step(h, Run(h, s, es[..|es| - 1]), es[|es| - 1])
    decreases |es|
  {
    if |es| > 1 {
      assert es[1..][..|es[1..]| - 1] == es[..|es| - 1][1..];
      RunSplit(h, Step(h, s, es[0]), es[1..]);
    }
  }

  /**
    At most one box group exists at any time, and once any marker has been
    entered it is the group of the last marker entered. A trace with no
    marker entry leaves the groups as they were.
   */
  lemma {:induction false} BoxBelongsToLastEntered(h: int, s: Tooltip, es: seq<Event>)
    requires Inv(s)
    ensures var r := Run(h, s, es);
            && |r.groups| <= 1
            && (LastEntered(es).Some? ==> |r.groups| == 1 && r.groups[0].place == LastEntered(es).value)
            && (LastEntered(es).None? ==> r.groups == s.groups)
    decreases |es|
  {
    if |es| > 0 {
      var init := es[..|es| - 1];
      RunSplit(h, s, es);
      BoxBelongsToLastEntered(h, s, init);
      RunPreservesInv(h, s, init);
      var mid := Run(h, s, init);
      match es[|es| - 1]
      case MarkerEnter(m) => MarkerEnterOwnsBox(h, mid, m);
      case _ =>
    }
    RunPreservesInv(h, s, es);
  }

  predicate NoBoxLeave(es: seq<Event>) {
    forall i :: 0 <= i < |es| ==> !es[i].BoxLeave?
  }

  /**
    While the pointer stays on the box no timer can close it, however many
    fire and whatever markers are entered or left.
   */
  lemma {:induction false} BoxHoverKeepsOpen(h: int, s: Tooltip, es: seq<Event>)
    requires s.boxOver && s.shown
    requires NoBoxLeave(es)
    ensures Run(h, s, es).shown && Run(h, s, es).boxOver
    decreases |es|
  {
    if |es| > 0 {
      assert !es[0].BoxLeave?;
      var s' := Step(h, s, es[0]);
      assert s'.boxOver && s'.shown;
      assert NoBoxLeave(es[1..]) by {
        forall i | 0 <= i < |es[1..]| ensures !es[1..][i].BoxLeave? {
          assert es[1..][i] == es[i + 1];
        }
      }
      BoxHoverKeepsOpen(h, s', es[1..]);
    }
  }

  /** Once the pointer leaves the box, and not onto a marker, the next timer to fire closes it, whatever timers were already pending. */
  lemma LeaveBoxThenClose(h: int, s: Tooltip)
    requires !s.circleOver
    ensures !Run(h, s, [BoxLeave, TimerFires]).shown
  {
    var s1 := Step(h, s, BoxLeave);
    assert [BoxLeave, TimerFires][1..] == [TimerFires];
    assert Run(h, s1, [TimerFires]) == Step(h, s1, TimerFires);
  }

  /** Once the pointer leaves the marker, and not onto the box, the next timer to fire closes it, whatever timers were already pending. */
  lemma LeaveMarkerThenClose(h: int, s: Tooltip)
    requires !s.boxOver
    ensures !Run(h, s, [MarkerLeave, TimerFires]).shown
  {
    var s1 := Step(h, s, MarkerLeave);
    assert [MarkerLeave, TimerFires][1..] == [TimerFires];
    assert Run(h, s1, [TimerFires]) == Step(h, s1, TimerFires);
  }

  /** From a freshly drawn chart, hovering a marker and leaving it lets the timer close the box. */
  lemma HoverThenLeaveCloses(h: int, m: Marker)
    ensures !Run(h, Initial([m]), [MarkerEnter(m), MarkerLeave, TimerFires]).shown
  {
    var es := [MarkerEnter(m), MarkerLeave, TimerFires];
    var s1 := Step(h, Initial([m]), MarkerEnter(m));
    assert !s1.boxOver;
    assert es[1..] == [MarkerLeave, TimerFires];
    LeaveMarkerThenClose(h, s1);
  }

  /** Moving onto an expanded box keeps it open for as long as the pointer does not leave it. */
  lemma EnterBoxKeepsOpen(h: int, s: Tooltip, es: seq<Event>)
    requires s.shown && NoBoxLeave(es)
    ensures Run(h, s, [BoxEnter] + es).shown
  {
    assert ([BoxEnter] + es)[1..] == es;
    BoxHoverKeepsOpen(h, Step(h, s, BoxEnter), es);
  }

  /**
    A stale close is suppressed: leaving one marker and entering another before
    the first timer fires leaves the second record's box open.
   */
  lemma StaleCloseSuppressed(h: int, s: Tooltip, m: Marker)
    requires Inv(s) && s.pending == 0
    ensures var r := Run(h, s, [MarkerLeave, MarkerEnter(m), TimerFires]);
            r.shown && |r.groups| == 1 && r.groups[0].place == m.rec.place && r.pending == 0
  {
    var es := [MarkerLeave, MarkerEnter(m), TimerFires];
    var s1 := Step(h, s, MarkerLeave);
    var s2 := Step(h, s1, MarkerEnter(m));
    MarkerEnterOwnsBox(h, s1, m);
    assert es[1..] == [MarkerEnter(m), TimerFires];
    assert es[1..][1..] == [TimerFires];
    assert Run(h, s2, [TimerFires]) == Step(h, s2, TimerFires);
  }

  /** Opening A and then B at once leaves exactly B's group, expanded. */
  lemma OpenTwiceKeepsOnlySecond(h: int, s: Tooltip, a: Marker, b: Marker)
    requires Inv(s) && a.rec.place != b.rec.place
    ensures var r := Run(h, s, [MarkerEnter(a), MarkerEnter(b)]);
            r.groups == [CreateBoxGroup(h, b)] && r.shown
  {
    var es := [MarkerEnter(a), MarkerEnter(b)];
    var s1 := Step(h, s, MarkerEnter(a));
    MarkerEnterOwnsBox(h, s, a);
    assert !HasGroup(s1.groups, b.rec.place);
    var s2 := Step(h, s1, MarkerEnter(b));
    assert es[1..] == [MarkerEnter(b)];
    assert es[1..][1..] == [];
    assert Run(h, s1, es[1..]) == Run(h, s2, []);
    assert Run(h, s, es) == s2;
  }

  /** A radius a marker can have once hovering has begun. */
  predicate HoverRadius(v: int) {
    v == 6 || v == 7 || v == 12
  }

  lemma StepRadii(h: int, s: Tooltip, e: Event)
    ensures var r := Step(h, s, e);
            && r.radii.Keys == s.radii.Keys
            && (forall p :: p in r.radii ==> r.radii[p] == s.radii[p] || HoverRadius(r.radii[p]))
            && (e.MarkerEnter? ==> forall p :: p in r.radii ==> HoverRadius(r.radii[p]))
            && ((forall p :: p in s.radii ==> HoverRadius(s.radii[p])) ==>
                  forall p :: p in r.radii ==> HoverRadius(r.radii[p]))
  {
  }

  /**
    Over any trace the markers stay the same and each keeps its radius or
    takes 6, 7 or 12; once a marker has been entered every radius is 6, 7
    or 12, so no clean rider's marker is 9 again.
   */
  lemma {:induction false} RadiiOverTrace(h: int, s: Tooltip, es: seq<Event>)
    ensures var r := Run(h, s, es);
            && r.radii.Keys == s.radii.Keys
            && (forall p :: p in r.radii ==> r.radii[p] == s.radii[p] || HoverRadius(r.radii[p]))
            && (LastEntered(es).Some? ==> forall p :: p in r.radii ==> HoverRadius(r.radii[p]))
    decreases |es|
  {
    if |es| > 0 {
      var init := es[..|es| - 1];
      RunSplit(h, s, es);
      RadiiOverTrace(h, s, init);
      StepRadii(h, Run(h, s, init), es[|es| - 1]);
    }
  }

  /**
    The close sequence sets every radius to 7, so a clean rider's marker,
    drawn at 9, comes back at 7.
   */
  lemma CloseForgetsInitialRadius(h: int, ms: seq<Marker>, es: seq<Event>, i: nat)
    requires i < |ms| && ms[i].rec.doping == ""
    requires forall j :: i < j < |ms| ==> ms[j].rec.place != ms[i].rec.place
    requires var r := Run(h, Initial(ms), es); r.pending > 0 && !r.boxOver && !r.circleOver
    ensures var r := Run(h, Initial(ms), es);
            var closed := Step(h, r, TimerFires);
            && ms[i].rec.place in Initial(ms).radii
            && Initial(ms).radii[ms[i].rec.place] == 9
            && ms[i].rec.place in closed.radii
            && closed.radii[ms[i].rec.place] == 7
  {
    InitialRadiusOfPlace(ms, i);
    RadiiOverTrace(h, Initial(ms), es);
  }
}

=== FILE: layout.dfy ===
/**
  Chart dimensions and the placement of the detail box (`getX`, `getY` of
  src/App.js). Pixel coordinates are the outputs of the chart's linear
  scales; the scales are not modelled, so a marker's centre arrives as input.
 */
module Layout {
  import opened Cyclist

  const Width: int := 800
  const Padding: int := 40

  /** The chart height chosen once from the viewport height. */
  function ChartHeight(innerHeight: int): (h: int)
    ensures h > 370
    ensures innerHeight > 600 ==> h == innerHeight - 150
    ensures 450 < innerHeight <= 600 ==> h == innerHeight - 80
    ensures innerHeight <= 450 ==> h == 450
    ensures innerHeight > 450 ==> h + 80 <= innerHeight
  {
    if innerHeight > 600 then innerHeight - 150
    else if innerHeight > 450 then innerHeight - 80
    else 450
  }

  /** Beyond this x the box is drawn to the left of the marker. */
  const FlipX: int := Width - Padding - 200

  /** Left edge of the detail box for a marker centred at `x`. */
  function GetX(x: real, doping: string): (r: real)
    ensures r == x + 5.0 || r + BoxSize(doping).width as real == x
    ensures r > x <==> x <= FlipX as real
  {
    if x > FlipX as real then
      if doping == "" then x - 175.0 else x - 350.0
    else x + 5.0
  }

  /** Top edge of the detail box for a marker centred at `y` on a chart `h` high. */
  function GetY(y: real, h: int): (r: real)
    ensures r == y + 5.0 || r == y - 100.0
    ensures r > y <==> y <= (h - Padding - 100) as real
  {
    if y > (h - Padding - 100) as real then y - 100.0 else y + 5.0
  }

  /** The box never covers its marker's centre: it lies wholly right of it or ends at it. */
  lemma BoxClearsMarkerX(x: real, doping: string)
    ensures var left := GetX(x, doping);
            left > x || left + BoxSize(doping).width as real <= x
  {
  }

  /** Vertically the box lies wholly below the marker's centre or wholly above it. */
  lemma BoxClearsMarkerY(y: real, h: int, doping: string)
    ensures var top := GetY(y, h);
            top > y || top + BoxSize(doping).height as real < y
  {
  }

  /**
    For a marker inside the plotting area the box stays within the chart's
    width exactly when it is the narrow empty-doping box, or the marker is
    far enough left, or the box was flipped; a wide box for a marker between
    445 and 560 runs past the right edge.
   */
  lemma BoxWithinWidth(x: real, doping: string)
    requires Padding as real <= x <= (Width - Padding) as real
    ensures var left := GetX(x, doping);
            (0.0 <= left && left + BoxSize(doping).width as real <= Width as real)
            <==> (doping == "" || x <= 445.0 || x > FlipX as real)
  {
  }

  /** For a marker inside the plotting area the box stays within the chart's height. */
  lemma BoxWithinHeight(y: real, innerHeight: int, doping: string)
    requires var h := ChartHeight(innerHeight);
             Padding as real <= y <= (h - Padding) as real
    ensures var h := ChartHeight(innerHeight);
            var top := GetY(y, h);
            0.0 <= top && top + BoxSize(doping).height as real <= h as real
  {
  }

  /**
    A taller viewport never gives a shorter chart, except across the two
    breakpoints: from at most 450 to 451..529, and from 451..600 to a
    viewport above 600 that is less than 70 pixels taller.
   */
  lemma ChartHeightDrops(a: int, b: int)
    requires a < b
    ensures ChartHeight(a) > ChartHeight(b) <==>
            (a <= 450 < b < 530) || (450 < a <= 600 < b < a + 70)
  {
  }

  /** The two steepest drops: 450 to 451 and 600 to 601. */
  lemma ChartHeightDropExamples()
    ensures ChartHeight(450) == 450 && ChartHeight(451) == 371
    ensures ChartHeight(600) == 520 && ChartHeight(601) == 451
  {
  }
}

=== FILE: time_label.dfy ===
/**
  The `M:SS`-style label of `getTime` (src/App.js), used for the y-axis tick
  labels and for the "Tiempo" line of the detail box.

  `getTime` starts from the epoch, advances the clock by `x` seconds and
  reads back the minute-of-hour and second-of-minute fields. With a time zone
  whose offset is a whole number of hours these are `(x div 60) mod 60` and
  `x mod 60` (Euclidean, so a negative `x` wraps backwards across the epoch as
  a clock does). Hours are dropped. Only a seconds field of exactly 0 is
  padded (to "00"); 1..9 are printed as a single digit, so 65 seconds reads
  "1:5".
 */
module TimeLabel {
  import opened Wrappers
  import opened Decimal

  /** The clock's second-of-minute field after `x` seconds. */
  function ClockSeconds(x: int): (s: int)
    ensures 0 <= s < 60
    ensures (x - s) % 60 == 0
  {
    x % 60
  }

  /**
    The clock's minute-of-hour field after `x` seconds: together with the
    second field it is what is left of `x` after whole hours are taken off.
   */
  function ClockMinutes(x: int): (m: int)
    ensures 0 <= m < 60
    ensures (x - 60 * m - ClockSeconds(x)) % 3600 == 0
  {
    var q := x / 60;
    assert x == 60 * q + x % 60;
    assert q == 60 * (q / 60) + q % 60;
    assert x - 60 * (q % 60) - x % 60 == 3600 * (q / 60);
    (x / 60) % 60
  }

  /** The seconds text: the literal 0 becomes "00", every other value is printed as is. */
  function SecondsField(s: int): (t: string)
    requires 0 <= s < 60
    ensures |t| == 1 <==> 1 <= s <= 9
    ensures |t| == 2 <==> (s == 0 || 10 <= s)
    ensures AllDigits(t)
  {
    if s == 0 then "00" else NatToString(s)
  }

  /** The label `getTime(x)` leaves in `time`. */
  function FormatTime(x: int): (t: string)
    ensures 3 <= |t| <= 5
    ensures |NatToString(ClockMinutes(x))| < |t| && t[|NatToString(ClockMinutes(x))|] == ':'
    ensures |t| == |NatToString(ClockMinutes(x))| + (if 1 <= ClockSeconds(x) <= 9 then 2 else 3)
  {
    NatToString(ClockMinutes(x)) + ":" + SecondsField(ClockSeconds(x))
  }

  /** Index of the first `c` in `t`, if any. */
  function IndexOf(t: string, c: char): (r: Option<nat>)
    ensures r.Some? ==> r.value < |t| && t[r.value] == c
    ensures r.Some? ==> forall k :: 0 <= k < r.value ==> t[k] != c
    ensures r.None? ==> forall k :: 0 <= k < |t| ==> t[k] != c
  {
    if |t| == 0 then None
    else if t[0] == c then Some(0)
    else match IndexOf(t[1..], c)
      case None => None
      case Some(i) => Some(i + 1)
  }

  /** Reads a `minutes:seconds` label back into its two fields. */
  function ParseTimeLabel(t: string): Option<(int, int)> {
    match IndexOf(t, ':')
    case None => None
    case Some(i) =>
      var mins := t[..i];
      var secs := t[i + 1..];
      if 1 <= |mins| && 1 <= |secs| && AllDigits(mins) && AllDigits(secs)
      then Some((ParseDigits(mins) as int, ParseDigits(secs) as int))
      else None
  }

  lemma {:induction false} IndexOfAfterPrefix(a: string, c: char, b: string)
    requires forall k :: 0 <= k < |a| ==> a[k] != c
    ensures IndexOf(a + [c] + b, c) == Some(|a|)
    decreases |a|
  {
    var t := a + [c] + b;
    if |a| > 0 {
      assert t[1..] == a[1..] + [c] + b;
      IndexOfAfterPrefix(a[1..], c, b);
    }
  }

  /**
    The label is unambiguous despite the missing padding: reading it back
    gives exactly the clock's minute and second fields.
   */
  lemma ParseFormatTime(x: int)
    ensures ParseTimeLabel(FormatTime(x)) == Some((ClockMinutes(x), ClockSeconds(x)))
  {
    var m := NatToString(ClockMinutes(x));
    var s := SecondsField(ClockSeconds(x));
    var t := FormatTime(x);
    assert t == m + [':'] + s;
    IndexOfAfterPrefix(m, ':', s);
    assert t[..|m|] == m;
    assert t[|m| + 1..] == s;
    ParseNatToString(ClockMinutes(x));
    if ClockSeconds(x) != 0 {
      ParseNatToString(ClockSeconds(x));
    } else {
      assert s == "00";
      assert s[..1] == "0";
      assert ParseDigits(s[..1]) == 0;
    }
  }

  /** Two second counts share a label exactly when they agree modulo one hour. */
  lemma FormatTimeSameWithinHour(x: int, y: int)
    ensures FormatTime(x) == FormatTime(y) <==> x % 3600 == y % 3600
  {
    if FormatTime(x) == FormatTime(y) {
      ParseFormatTime(x);
      ParseFormatTime(y);
      assert ClockMinutes(x) == ClockMinutes(y) && ClockSeconds(x) == ClockSeconds(y);
      ClockFieldsDetermineHourRemainder(x, y);
    }
    if x % 3600 == y % 3600 {
      HourRemainderDeterminesClockFields(x, y);
    }
  }

  lemma ClockFieldsDetermineHourRemainder(x: int, y: int)
    requires ClockMinutes(x) == ClockMinutes(y) && ClockSeconds(x) == ClockSeconds(y)
    ensures x % 3600 == y % 3600
  {
    assert x == (x / 60) * 60 + x % 60;
    assert y == (y / 60) * 60 + y % 60;
    var qx, qy := x / 60, y / 60;
    assert qx == (qx / 60) * 60 + qx % 60;
    assert qy == (qy / 60) * 60 + qy % 60;
    assert x == (qx / 60) * 3600 + (qx % 60) * 60 + x % 60;
    assert y == (qy / 60) * 3600 + (qy % 60) * 60 + y % 60;
    var r := (qx % 60) * 60 + x % 60;
    assert 0 <= r < 3600;
    assert x == (qx / 60) * 3600 + r && y == (qy / 60) * 3600 + r;
    ModUnique(x, qx / 60, r);
    ModUnique(y, qy / 60, r);
  }

  lemma HourRemainderDeterminesClockFields(x: int, y: int)
    requires x % 3600 == y % 3600
    ensures ClockMinutes(x) == ClockMinutes(y) && ClockSeconds(x) == ClockSeconds(y)
  {
    var r := x % 3600;
    var a, b := x / 3600, y / 3600;
    assert x == a * 3600 + r && y == b * 3600 + r;
    assert x == (a * 60 + r / 60) * 60 + r % 60;
    assert y == (b * 60 + r / 60) * 60 + r % 60;
    DivMod60Unique(x, a * 60 + r / 60, r % 60);
    DivMod60Unique(y, b * 60 + r / 60, r % 60);
    DivMod60Unique(a * 60 + r / 60, a, r / 60);
    DivMod60Unique(b * 60 + r / 60, b, r / 60);
  }

  lemma ModUnique(x: int, q: int, r: int)
    requires 0 <= r < 3600 && x == q * 3600 + r
    ensures x % 3600 == r
  {
  }

  lemma DivMod60Unique(x: int, q: int, r: int)
    requires 0 <= r < 60 && x == q * 60 + r
    ensures x / 60 == q && x % 60 == r
  {
  }

  /** The boundary cases of the padding rule. */
  lemma FormatTimeExamples()
    ensures FormatTime(0) == "0:00"
    ensures FormatTime(65) == "1:5"
    ensures FormatTime(2340) == "39:00"
    ensures FormatTime(3600) == "0:00"
  {
  }
}

=== FILE: tooltip_text.dfy ===
/**
  The text of the detail box (`createTextData` and its `lineBreak` helper
  in src/App.js): three header lines, then the doping text on one line when
  it has at most 50 characters, or split at character 50 over two lines,
  the first ending in "_" as a continuation mark.
 */
module TooltipText {
  import opened Wrappers
  import opened Decimal
  import opened TimeLabel
  import opened Cyclist
  import opened Layout

  const SplitAt: nat := 50
  const InfoPrefix: string := "Info: "

  /** One `tspan`: its x, its line offset `dy` and its text. */
  datatype Tspan = Tspan(x: real, dy: string, text: string)

  /** Name and nationality, year, and time: the three lines every box shows. */
  function HeaderLines(d: Record): (ls: seq<string>)
    ensures |ls| == 3
    ensures |ls[0]| == |d.name| + |d.nationality| + 3
    ensures ls[0][..|d.name|] == d.name && ls[0][|d.name|..|d.name| + 2] == " ("
    ensures ls[0][|d.name| + 2..|ls[0]| - 1] == d.nationality && ls[0][|ls[0]| - 1] == ')'
    ensures |ls[1]| > 5 && ls[1][..5] == "Año: " && ParseInt(ls[1][5..]) == Some(d.year)
    ensures ls[1][5..] == IntToString(d.year)
    ensures |ls[2]| > 8 && ls[2][..8] == "Tiempo: " && ls[2][8..] == FormatTime(d.seconds)
    ensures ParseTimeLabel(ls[2][8..]) == Some((ClockMinutes(d.seconds), ClockSeconds(d.seconds)))
  {
    var first := d.name + " (" + d.nationality + ")";
    var year := "Año: " + IntToString(d.year);
    var time := "Tiempo: " + FormatTime(d.seconds);
    assert year[5..] == IntToString(d.year);
    assert time[8..] == FormatTime(d.seconds);
    ParseFormatTime(d.seconds);
    [first, year, time]
  }

  /**
    The lines `lineBreak` appends for the doping text: none when it is empty,
    "Info: <doping>." when it has at most 50 characters, and otherwise
    "Info: " with the first 50 characters and a "_", then the rest and a ".".
   */
  function InfoLines(doping: string): (ls: seq<string>)
    ensures doping == "" <==> |ls| == 0
    ensures 1 <= |doping| <= 50 ==>
              && |ls| == 1
              && |ls[0]| == |doping| + 7
              && ls[0][..6] == "Info: "
              && ls[0][6..|ls[0]| - 1] == doping
              && ls[0][|ls[0]| - 1] == '.'
    ensures 50 < |doping| ==>
              && |ls| == 2
              && |ls[0]| == 57
              && ls[0][..6] == "Info: "
              && ls[0][6..56] == doping[..50]
              && ls[0][56] == '_'
              && |ls[1]| == |doping| - 49
              && ls[1][..|ls[1]| - 1] == doping[50..]
              && ls[1][|ls[1]| - 1] == '.'
  {
    if doping == "" then []
    else if |doping| <= SplitAt then
      var l := InfoPrefix + doping + ".";
      assert l[6..|l| - 1] == doping;
      [l]
    else
      var l0 := InfoPrefix + doping[..SplitAt] + "_";
      var l1 := doping[SplitAt..] + ".";
      assert l0[6..56] == doping[..50];
      assert l1[..|l1| - 1] == doping[50..];
      [l0, l1]
  }

  /** Every line of the detail box, top to bottom. */
  function TextLines(d: Record): (ls: seq<string>)
    ensures 3 <= |ls| <= 5
    ensures ls[..3] == HeaderLines(d) && ls[3..] == InfoLines(d.doping)
  {
    HeaderLines(d) + InfoLines(d.doping)
  }

  /** The `tspan`s for a marker centred at `x`: the first at `dy` 0, the rest one line lower each. */
  function TextLayout(d: Record, x: real): (ts: seq<Tspan>)
    ensures |ts| == |TextLines(d)|
    ensures forall i :: 0 <= i < |ts| ==>
              ts[i].x == GetX(x, d.doping) + 7.0 && ts[i].text == TextLines(d)[i]
    ensures ts[0].dy == "0em"
    ensures forall i :: 1 <= i < |ts| ==> ts[i].dy == "1.2em"
  {
    var ls := TextLines(d);
    var left := GetX(x, d.doping) + 7.0;
    seq(|ls|, i requires 0 <= i < |ls| => Tspan(left, if i == 0 then "0em" else "1.2em", ls[i]))
  }

  /** The texts of a run of `tspan`s, in order. */
  function Texts(ts: seq<Tspan>): (ls: seq<string>)
    ensures |ls| == |ts| && forall i :: 0 <= i < |ts| ==> ls[i] == ts[i].text
  {
    seq(|ts|, i requires 0 <= i < |ts| => ts[i].text)
  }

  predicate HasPrefix(s: string, p: string) {
    |p| <= |s| && s[..|p|] == p
  }

  predicate EndsWith(s: string, c: char) {
    1 <= |s| && s[|s| - 1] == c
  }

  /**
    Recovers the doping text from the box's lines: the single info line must
    read "Info: ...", the split pair "Info: " with 50 characters and "_" and
    then "...", and every info line must end in the marker the layout adds.
   */
  function RecoverDoping(ls: seq<string>): Option<string> {
    if |ls| == 3 then Some("")
    else if |ls| == 4 then
      var l := ls[3];
      if HasPrefix(l, InfoPrefix) && EndsWith(l, '.') && |l| >= 7
      then Some(l[6..|l| - 1]) else None
    else if |ls| == 5 then
      var l0, l1 := ls[3], ls[4];
      if HasPrefix(l0, InfoPrefix) && |l0| == 57 && l0[56] == '_' && EndsWith(l1, '.')
      then Some(l0[6..56] + l1[..|l1| - 1]) else None
    else None
  }

  /** The number of lines tells the doping length class, in both directions. */
  lemma LineCount(d: Record)
    ensures |TextLines(d)| == 3 <==> d.doping == ""
    ensures |TextLines(d)| == 4 <==> 1 <= |d.doping| <= SplitAt
    ensures |TextLines(d)| == 5 <==> SplitAt < |d.doping|
  {
  }

  /** Nothing of the doping text is lost or altered by the line break. */
  lemma RecoverTextLines(d: Record)
    ensures RecoverDoping(TextLines(d)) == Some(d.doping)
  {
    var ls := TextLines(d);
    var dop := d.doping;
    assert ls[3..] == InfoLines(dop);
    if SplitAt < |dop| {
      assert ls[3][6..56] + ls[4][..|ls[4]| - 1] == dop[..50] + dop[50..];
      assert dop[..50] + dop[50..] == dop;
    }
  }

  /** The box grows by 15 pixels per line: its height is fixed by the line count. */
  lemma BoxHeightFitsLines(d: Record)
    ensures BoxSize(d.doping).height == 15 * |TextLines(d)| + 15
    ensures BoxSize(d.doping).width == 175 <==> |TextLines(d)| == 3
  {
  }

  /** The header's third line carries the time label of the record's seconds, readable back. */
  lemma TimeLineReadsBack(d: Record)
    ensures var l := TextLines(d)[2];
            |l| > 8 && l[..8] == "Tiempo: " && l[8..] == FormatTime(d.seconds)
            && ParseTimeLabel(l[8..]) == Some((ClockMinutes(d.seconds), ClockSeconds(d.seconds)))
  {
    assert TextLines(d)[2] == HeaderLines(d)[2];
  }

  /** The second line reads back as the record's year. */
  lemma YearLineReadsBack(d: Record)
    ensures var l := TextLines(d)[1];
            |l| > 5 && l[..5] == "Año: " && l[5..] == IntToString(d.year)
            && ParseInt(l[5..]) == Some(d.year)
  {
    assert TextLines(d)[1] == HeaderLines(d)[1];
  }
}

=== FILE: wrappers.dfy ===
/** An optional value: the result of a parser that may reject its input. */
module Wrappers {

  datatype Option<+T> = None | Some(value: T)
}
